=== FILE: README.md ===
# I2C GPS slave register map, modelled in Dafny

This project models the ATtiny85 I2C slave sketch of the I2C-Master-Slave
example (`ATTiny85_Slave/src/main.cpp`). The sketch exposes a 14-byte
register map to an I2C master:

| address | register |
|---|---|
| 0x00 | status |
| 0x01..0x04 | latitude, unsigned 32-bit, most significant byte first |
| 0x05..0x08 | longitude, signed 32-bit two's complement, most significant byte first |
| 0x09..0x0A | speed in km/h, unsigned 16-bit, most significant byte first |
| 0x0B | mode, writable |
| 0x0C | configuration, writable |
| 0x0D | identification, 0x0D |

The map is double-buffered. The production `loop` computes latitude, then
longitude, then speed, then status. It polls the two pending-write flags
before the first field and after each field. If either flag is set, it
clears `newDataAvailable`, applies the pending writes and starts over.
Otherwise `storeData` fills the staging map `registerMapTemp` and the loop
sets `newDataAvailable`. The read handler `requestEvent` copies bytes
0x00..0x0C from staging to the exposed map `registerMap`, but only when new
data is available. It then clears the flag and serves bytes from the read
pointer. The write handler `receiveEvent` does one of two things. A single
byte sets the read pointer. A longer payload queues writes to the mode and
config registers.

Files:

- `bytes.dfy` (module `Bytes`): the AVR integer widths, and big-endian and
  two's complement encodings with their round trips.
- `register_map.dfy` (module `RegisterMap`): the layout, `storeData`, and the
  reader-side decoding, with the placeholder sensor constants.
- `slave.dfy` (module `Slave`): the state record (both maps, the command
  buffer, the flag, the registers, the pending pairs, the cached fields, the
  pin level and the loop's next check point) and the step functions
  `Receive`, `ApplyPending`, `Toggle`, `LoopStep` and `Request`.
- `protocol.dfy` (module `Protocol`): runs, which are arbitrary
  interleavings of writes, reads and loop check points, and the guarantees
  that hold across them.

Modelling choices:

- A byte is the subset type `byte` of `int` (0..255). Payloads are
  `seq<byte>`. The served bytes are a returned `seq<byte>`. The ready pin
  is the boolean `pinHigh`.
- The bus callbacks and each check point of `loop` are atomic steps. The
  callbacks happen only between check points. A `LoopStep` performs one
  check and then the work up to the next check: it computes one field, or
  at the fifth check it stores the snapshot and raises the flag.
- The sensor (`getLatitude` and the other getters) is a parameter of each
  loop step. The stub constants of the sketch are `StubReadings`.
- `storeData` reads the bytes of `latitude`, `longitude` and `speedKPH`
  through a byte pointer. On the little-endian AVR this puts the most
  significant byte first. The model writes that order with explicit
  big-endian encoding.
- Read policy: the sketch serves 14 bytes from `registerMap + pointer`,
  which runs past the map for every nonzero pointer. The model serves
  `registerMap[p..14]`, and nothing when `p >= 14`. See Findings.
- An empty write is modelled as written. The handler then dispatches on
  whatever byte 0 of the command buffer holds from earlier
  (`Protocol.EmptyWriteReplaysStaleCommand`).
- A write to an address other than 0x0B or 0x0C changes no register. The
  sketch's comment at `ATTiny85_Slave/src/main.cpp:294` calls this case
  ignored. But the write does move the read pointer, because the pointer is
  byte 0 of the command buffer. So the next read starts at that address,
  not where it started before (`Protocol.WriteMovesReadPointer`).

## Model

| member | source | states |
|---|---|---|
| Bytes.DecodeEncode | ATTiny85_Slave/src/main.cpp:151-169 | encoding a value below 256^n as n bytes, most significant first, and decoding them returns the value |
| Bytes.EncodeDecode | ATTiny85_Slave/src/main.cpp:18-34 | every byte string is the n-byte big-endian encoding of its decoded value, so decoding is injective |
| Bytes.SignedUnsigned32 | ATTiny85_Slave/src/main.cpp:67 | a signed 32-bit `long` comes back unchanged from its two's complement bit pattern |
| Bytes.UnsignedSigned32 | ATTiny85_Slave/src/main.cpp:67 | a 32-bit pattern comes back unchanged from the signed `long` it stands for |
| Bytes.Unsigned32 | ATTiny85_Slave/src/main.cpp:157-162 | the longitude's bit pattern is congruent to the value modulo 2^32, and its top bit is set exactly for negative values |
| RegisterMap.StoreData | ATTiny85_Slave/src/main.cpp:146-174 | staging byte 0 is the status; bytes 1..4 decode to the latitude, 5..8 to the longitude as two's complement, and 9..10 to the speed; byte 11 is the mode and byte 12 the config; byte 13 is untouched |
| Bytes.EncodeBEByte | ATTiny85_Slave/src/main.cpp:151-169 | byte j of the n-byte encoding of x is x shifted right by 8 * (n - 1 - j) and masked to 8 bits |
| RegisterMap.StoreDataLayout | ATTiny85_Slave/src/main.cpp:146-174 | staging byte 0 is the status; for each i, byte i of the little-endian latitude word (the value shifted right by 8 * i, masked to 8 bits) is at address 4 - i, byte i of the longitude's bit pattern at 8 - i, and byte i of the speed at 10 - i, as the three copy loops place them; byte 11 is the mode and byte 12 the config |
| RegisterMap.DecodeEncodeSnapshot | ATTiny85_Slave/src/main.cpp:18-34 | a reader that decodes the documented layout recovers exactly the fields that were stored |
| RegisterMap.EncodeDecodeSnapshot | ATTiny85_Slave/src/main.cpp:18-34 | every 13-byte image is the encoding of the snapshot it decodes to |
| RegisterMap.StubReadingsLayout | ATTiny85_Slave/src/main.cpp:41-46 | with the placeholder getters, staging bytes 0..10 are 0x00, 0x01, ..., 0x0A, followed by mode and config |
| Slave.Setup | ATTiny85_Slave/src/main.cpp:55-90 | after setup the identification byte is 0x0D, the pin is high, no data is ready, no write is pending, the other exposed bytes are 0, mode and config are 0, and the whole command buffer, read pointer included, is zero |
| Slave.Latch | ATTiny85_Slave/src/main.cpp:239-249 | the first min(n, 3) bytes of the payload land in the command buffer, and slots the payload does not reach keep their old bytes |
| Slave.ReadPayload | ATTiny85_Slave/src/main.cpp:239-249 | the byte-by-byte copy loop stores payload bytes 0..2 and drains the rest, giving the same buffer as `Latch` |
| Slave.Receive | ATTiny85_Slave/src/main.cpp:236-297 | a 1-byte write sets the pointer to the address, or to 0 if the address is 14 or more, and touches no pending write; [0x0B, v] queues mode v, and a third byte w also queues config w; [0x0C, v, ...] queues only config v; any other address queues nothing; an empty write keeps the command buffer and dispatches on its stale byte 0 (0x0B queues both stale bytes, 0x0C queues the stale config byte); only the command buffer and the pending pairs change |
| Slave.Toggle | ATTiny85_Slave/src/main.cpp:199-214 | after the call the pin is low exactly when new data is available, and nothing else changes |
| Slave.ApplyPending | ATTiny85_Slave/src/main.cpp:176-195 | each dirty pending value goes into its register, and its flag and data are cleared; a clean register and its pair are unchanged; nothing else changes |
| Slave.LoopStep | ATTiny85_Slave/src/main.cpp:92-144 | a check that sees a dirty flag clears the ready flag, raises the pin, applies the writes, leaves staging alone and restarts the pass; a clean check before the fifth advances the count of clean checks by one, records latitude, longitude, speed or status from the sensor at the first, second, third or fourth check respectively, and changes nothing else (the flag and pin stay); staging changes and the flag rises only at a clean fifth check, where the snapshot of the current fields, mode and config is stored and the pin goes low |
| Slave.Commit | ATTiny85_Slave/src/main.cpp:219-225 | the exposed map takes staging bytes 0..12 and keeps its own byte 13 |
| Slave.Serve | ATTiny85_Slave/src/main.cpp:231-233 | a read serves the 14 - p bytes of the exposed map from the pointer p on, or nothing when p is past the map |
| Slave.Request | ATTiny85_Slave/src/main.cpp:216-234 | the exposed map is committed from staging only when data was ready, and is otherwise unchanged; the flag always ends clear with the pin high; the response is served from the pointer; nothing else changes |
| Slave.ServeAsWritten | ATTiny85_Slave/src/main.cpp:233 | the sketch's response is always 14 bytes, and byte i comes from the map exactly when p + i < 14 |
| Protocol.NextPreservesInv | ATTiny85_Slave/src/main.cpp:92-234 | every write, read and check point keeps identification 0x0D, keeps the pin low exactly while data is ready, and keeps a ready snapshot's mode and config bytes equal to the registers |
| Protocol.RunPreservesInv | ATTiny85_Slave/src/main.cpp:92-234 | the same invariant holds after any sequence of events |
| Protocol.ReachableStates | ATTiny85_Slave/src/main.cpp:89 | after setup, whatever events follow, register 0x0D of the exposed map reads 0x0D and the pin is low exactly while new data is available |
| Protocol.CommitCarriesRegisters | ATTiny85_Slave/src/main.cpp:216-225 | a read that commits exposes bytes 0..12 of staging, whose mode and config bytes are the current registers |
| Protocol.ReadyRisesOnlyAfterCleanPass | ATTiny85_Slave/src/main.cpp:92-144 | in one step, `newDataAvailable` rises only at a poll at the fifth check point that finds both flags clear; the loop's check point changes only at a poll, and goes back to the first check exactly on a dirty check or after storing |
| Protocol.CheckPointIsStreak | ATTiny85_Slave/src/main.cpp:92-139 | along any run, the loop's check point equals the number of clean polls in a row since the last restart of a pass, counted independently of the check point |
| Protocol.ReadyRisesAfterFiveCleanPolls | ATTiny85_Slave/src/main.cpp:92-143 | from setup, or any state at the first check point, `newDataAvailable` rises only at a clean poll that follows four clean polls in a row since the loop last restarted, so all five checks of the pass saw both flags clear |
| Protocol.UninterruptedPass | ATTiny85_Slave/src/main.cpp:92-144 | five clean check points with nothing in between store exactly the sensor's fields with the current mode and config, mark them ready and drive the pin low |
| Protocol.FieldsFollowCheckOrder | ATTiny85_Slave/src/main.cpp:92-144 | over five clean check points with sensors r1..r5, the stored snapshot has r1's latitude, r2's longitude, r3's speed and r4's status, with the current mode and config, and is marked ready |
| Protocol.QueuedWritesAreApplied | ATTiny85_Slave/src/main.cpp:94-99 | without further register writes (1-byte pointer sets and reads may come), queued mode and config values stay queued until the next check point; from then on each is in its register and in every snapshot marked ready |
| Protocol.CleanRunKeepsRegisters | ATTiny85_Slave/src/main.cpp:176-195 | with no write pending and no register write arriving, pointer sets, reads and check points never change mode or config |
| Protocol.PointerSetIdempotent | ATTiny85_Slave/src/main.cpp:252-262 | setting the pointer to the same address twice gives the same state and the same next response as setting it once |
| Protocol.ExtraBytesDrained | ATTiny85_Slave/src/main.cpp:239-249 | two writes that agree on their first three bytes have the same effect |
| Protocol.WriteMovesReadPointer | ATTiny85_Slave/src/main.cpp:243 | a 2-byte write leaves its address as the read pointer; after [0x0B, v] the next read starts at the mode register; an address of 14 or more leaves the next read empty; a write to a non-writable address only replaces the command buffer |
| Protocol.PointerToConfigServesConfig | ATTiny85_Slave/src/main.cpp:252-255 | after a pointer set to 0x0C, a read serves the config byte of the snapshot it exposes, then the identification byte |
| Protocol.EmptyWriteReplaysStaleCommand | ATTiny85_Slave/src/main.cpp:271-285 | an empty write after the pointer was set to 0x0B queues the mode and config bytes left over from an older write |
| Protocol.EmptyWriteReplaysStaleConfig | ATTiny85_Slave/src/main.cpp:288-291 | an empty write after the pointer was set to 0x0C queues the config byte left over from an older write, and changes nothing else |
| Protocol.FreshEmptyWriteZeroesRegisters | ATTiny85_Slave/src/main.cpp:58 | from start-up, a pointer set to 0x0B and then an empty write queue the zero-initialised buffer bytes, so mode and config both become 0 at the next check point |
| Protocol.ApplyPendingIdempotent | ATTiny85_Slave/src/main.cpp:176-195 | applying the pending writes twice in a row is the same as applying them once |
| Protocol.ServeIsInBoundsPart | ATTiny85_Slave/src/main.cpp:233 | the bounded response is the in-map prefix of the sketch's response, and every later byte of the sketch's response lies past the map |
| Protocol.AsWrittenOverruns | ATTiny85_Slave/src/main.cpp:233 | for every nonzero pointer, the last byte of the sketch's response lies past the end of the map |
| Protocol.ModeAndConfigWriteThenRead | Uno_Master/src/Master_Example.cpp:44-87 | after a write of [0x0B, 5, 6] (a test value and the next, as the master sends), one applying check point, a full pass with the placeholder sensor and a pointer set to 0, a read returns 0x00..0x0A, 5, 6, 0x0D |

## Left out

- The TwoWire / TinyWireS transport: `Wire.begin`, `Wire.read`, `Wire.write` and the callback registration. A payload is a sequence of bytes, and a response is the returned sequence.
- `pinMode`, `digitalWrite`, `SLAVE_ADDRESS` and `INTERRUPT_PIN`. The pin is a boolean level in the state.
- `useInterrupt` is fixed at 1 in the sketch and never changes, so `Toggle` always drives the pin. The branch for a disabled interrupt line is not modelled.
- True interrupt preemption. Callbacks fire only at check points in the model. A write from the master touches only the command buffer and the pending pairs. `loop` tests the pending pairs at its checks, and `changeModeConfig` also clears them inside the abort (`ATTiny85_Slave/src/main.cpp:186-187`, `192-193`); the model applies that abort atomically. Outside `changeModeConfig`, a write that fires anywhere between two checks is modelled as arriving just before the later check. Inside it, a write that fires before its register is assigned (`ATTiny85_Slave/src/main.cpp:185`, `191`) is applied at once if the register's flag test (lines 183 and 189) comes after the write or had already passed, and stays queued for the next check if that test had already failed; the model gives these by placing the write before or after the step. The writes that fire later in the block are listed below. A read is modelled as arriving at the current check point, before that check's `Polled` step. This is exact in three cases. While the loop computes a field, it touches only the cached fields, which a read does not look at. A read between the fifth check and `storeData` (`ATTiny85_Slave/src/main.cpp:132-141`) sees the old staging and the old flag, as a read placed before the storing step does. A read during the abort at a dirty check (`ATTiny85_Slave/src/main.cpp:96-98`) matches a read before that step if it fires before the flag is cleared, and a read after that step otherwise. A read placed after the storing step gives a different result: it commits the new staging and the flag ends clear.
- A write that fires inside `changeModeConfig` has no counterpart in the model. One between `modeRegister = zeroB_data` and `zeroB_changed = 0` (`ATTiny85_Slave/src/main.cpp:185-186`) queues its value, and the next two lines clear the flag and the data, so the write is lost. One between `zeroB_changed = 0` and `zeroB_data = 0` (`ATTiny85_Slave/src/main.cpp:186-187`) leaves the flag set with the data cleared, so the next check writes mode 0 instead of the value sent. Lines 191-193 do the same to the config register. `Protocol.QueuedWritesAreApplied` holds only because the model makes the abort atomic.
- A read during `storeData` (`ATTiny85_Slave/src/main.cpp:146-174`) has no counterpart in the model. When an earlier snapshot is still marked ready, the sketch commits a staging image that is only partly overwritten: a torn read that mixes two passes.
- A read between `storeData` and `newDataAvailable = 1` (`ATTiny85_Slave/src/main.cpp:141-142`) has no counterpart in the model. When an earlier snapshot is still marked ready, it commits the new staging and clears the flag. Line 142 then sets the flag again and drives the pin low, announcing a snapshot the master has already read.
- The master sketch `Uno_Master/src/Master_Example.cpp`. It is Wire, Serial and delay I/O. Its `SWAP_UINT16` / `SWAP_UINT32` decode depends on a packed struct and on host byte order. `RegisterMap.Decode` is the big-endian decode it stands for.
- The sketch's `bytesReceived` is an `int`, and its `byte` pointer arithmetic is unchecked. Payload lengths are unbounded naturals here.

## Findings

| source | as written | input that shows it | evidently intended | confidence | as-written member | corrected member |
|---|---|---|---|---|---|---|
| ATTiny85_Slave/src/main.cpp:233 | `requestEvent` always sends 14 bytes from `registerMap + receivedCommands[0]` | read pointer 1, set with the 1-byte write [0x01]: the 14th byte sent is `registerMap[14]`, one past the array (`Protocol.AsWrittenOverruns`) | send only the bytes from the pointer to the end of the map (`Protocol.ServeIsInBoundsPart`) | not executed | Slave.ServeAsWritten | Slave.Serve |

=== FILE: bytes.dfy ===
/**
  Fixed-width integers of the AVR target and their big-endian byte encodings.

  On the ATtiny85 an `unsigned int` is 16 bits and a `long` / `unsigned long`
  is 32 bits. The register map carries every multi-byte field most
  significant byte first, and the signed longitude as 32-bit two's complement.
 */
module Bytes {

  /** Arduino's `byte`: an unsigned 8-bit value. */
  type byte = x: int | 0 <= x < 0x100
  type uint16 = x: int | 0 <= x < 0x1_0000
  type uint32 = x: int | 0 <= x < 0x1_0000_0000
  type int32 = x: int | -0x8000_0000 <= x < 0x8000_0000

  /** 256 to the power n: the number of values that n bytes can hold. */
  function Pow256(n: nat): (r: nat)
    ensures r >= 1
    ensures n >= 1 ==> r >= 256
  {
    if n == 0 then 1 else 256 * Pow256(n - 1)
  }

  lemma Pow256Widths()
    ensures Pow256(2) == 0x1_0000
    ensures Pow256(4) == 0x1_0000_0000
  {
    assert Pow256(1) == 256;
    assert Pow256(3) == 0x100_0000;
  }

  /** The low n bytes of x, most significant first. */
  function EncodeBE(x: nat, n: nat): (r: seq<byte>)
    ensures |r| == n
    ensures n >= 1 ==> r[n - 1] == x % 256
  {
    if n == 0 then [] else EncodeBE(x / 256, n - 1) + [x % 256]
  }

  /** d * k is at least d for every k >= 1. */
  lemma {:induction false} MulAtLeast(d: nat, k: nat)
    requires k >= 1
    ensures d * k >= d
    decreases k
  {
    if k > 1 {
      MulAtLeast(d, k - 1);
      assert d * k == d * (k - 1) + d;
    }
  }

  /** Division by d has one quotient: the q with x == d * q + r and 0 <= r < d. */
  lemma DivUnique(x: nat, d: nat, q: nat, r: nat)
    requires 0 <= r < d && x == d * q + r
    ensures x / d == q
  {
    var q', r' := x / d, x % d;
    assert d * q' + r' == d * q + r;
    if q' < q {
      assert d * q == d * q' + d * (q - q');
      MulAtLeast(d, q - q');
    } else if q' > q {
      assert d * q' == d * q + d * (q' - q);
      MulAtLeast(d, q' - q);
    }
  }

  /** Dividing by a and then by b is dividing by a * b. */
  lemma DivDiv(x: nat, a: nat, b: nat)
    requires a > 0 && b > 0
    ensures x / a / b == x / (a * b)
  {
    var q, r := x / a, x % a;
    var q2, r2 := q / b, q % b;
    assert x == a * q + r;
    assert q == b * q2 + r2;
    assert a * q == a * (b * q2) + a * r2;
    assert a * (b * q2) == (a * b) * q2;
    var rest := a * r2 + r;
    assert rest < a * b by {
      var k: nat := b - 1 - r2;
      assert a * b == a * r2 + a * k + a;
      if k >= 1 { MulAtLeast(a, k); }
    }
    assert x == (a * b) * q2 + rest;
    MulAtLeast(a, b);
    DivUnique(x, a * b, q2, rest);
  }

  /** Byte j of the n-byte encoding of x: what `(x >> 8 * (n - 1 - j)) & 0xFF`
      gives in C. */
  lemma {:induction false} EncodeBEByte(x: nat, n: nat, j: nat)
    requires j < n
    ensures EncodeBE(x, n)[j] == x / Pow256(n - 1 - j) % 256
    decreases n
  {
    if j < n - 1 {
      EncodeBEByte(x / 256, n - 1, j);
      DivDiv(x, 256, Pow256(n - 2 - j));
    }
  }

  /** The unsigned value of a big-endian byte string. */
  function DecodeBE(b: seq<byte>): (x: nat)
    ensures x < Pow256(|b|)
  {
    if |b| == 0 then 0
    else
      var hi := DecodeBE(b[..|b| - 1]);
      assert hi * 256 <= (Pow256(|b| - 1) - 1) * 256;
      hi * 256 + b[|b| - 1]
  }

  lemma {:induction false} DecodeEncode(x: nat, n: nat)
    requires x < Pow256(n)
    ensures DecodeBE(EncodeBE(x, n)) == x
  {
    if n > 0 {
      var e := EncodeBE(x, n);
      assert e[..n - 1] == EncodeBE(x / 256, n - 1);
      DecodeEncode(x / 256, n - 1);
    }
  }

  lemma {:induction false} EncodeDecode(b: seq<byte>)
    ensures EncodeBE(DecodeBE(b), |b|) == b
  {
    if |b| > 0 {
      var n := |b|;
      var hi := DecodeBE(b[..n - 1]);
      var x := DecodeBE(b);
      assert x / 256 == hi && x % 256 == b[n - 1];
      EncodeDecode(b[..n - 1]);
      assert b == b[..n - 1] + [b[n - 1]];
    }
  }

  /** The 32-bit two's complement bit pattern of a signed value. */
  function Unsigned32(v: int32): (u: uint32)
    ensures (u - v) % 0x1_0000_0000 == 0
    ensures u < 0x8000_0000 <==> v >= 0
  {
    if v < 0 then v + 0x1_0000_0000 else v
  }

  /** The signed value a 32-bit two's complement bit pattern stands for. */
  function Signed32(u: uint32): (v: int32)
    ensures (u - v) % 0x1_0000_0000 == 0
    ensures v < 0 <==> u >= 0x8000_0000
  {
    if u >= 0x8000_0000 then u - 0x1_0000_0000 else u
  }

  /** A signed value survives the trip through its bit pattern. */
  lemma SignedUnsigned32(v: int32)
    ensures Signed32(Unsigned32(v)) == v
  {
  }

  /** A bit pattern survives the trip through its signed value. */
  lemma UnsignedSigned32(u: uint32)
    ensures Unsigned32(Signed32(u)) == u
  {
  }
}

=== FILE: protocol.dfy ===
/**
  Runs of the slave: any interleaving of bus events with the loop's check
  points, and the guarantees the register-map protocol gives across them.
 */
module Protocol {
  import opened Bytes
  import opened RegisterMap
  import opened Slave

  /** Something that can happen to the slave between two check points. */
  datatype Event =
    | Written(payload: seq<byte>)  // the master writes; receiveEvent runs
    | Read                         // the master reads; requestEvent runs
    | Polled(sensor: Readings)     // the loop passes one check point

  function Next(s: State, e: Event): State {
    match e
    case Written(payload) => Receive(s, payload)
    case Read => Request(s).0
    case Polled(sensor) => LoopStep(s, sensor)
  }

  function Run(s: State, evs: seq<Event>): State
    decreases |evs|
  {
    if |evs| == 0 then s else Run(Next(s, evs[0]), evs[1..])
  }

  /** The master writes no register: every write in the run is a 1-byte
      pointer set, like the one the master sends before each read. */
  predicate NoRegisterWrites(evs: seq<Event>) {
    forall i :: 0 <= i < |evs| ==> !evs[i].Written? || |evs[i].payload| == 1
  }

  predicate SomePoll(evs: seq<Event>) {
    exists i :: 0 <= i < |evs| && evs[i].Polled?
  }

  // ------------------------------------------------------------ invariants

  /** Every step keeps the identification byte, the pin/flag coupling, and
      the agreement of a ready snapshot with the mode and config registers. */
  lemma NextPreservesInv(s: State, e: Event)
    requires Inv(s)
    ensures Inv(Next(s, e))
  {
  }

  lemma {:induction false} RunPreservesInv(s: State, evs: seq<Event>)
    requires Inv(s)
    ensures Inv(Run(s, evs))
    decreases |evs|
  {
    if |evs| > 0 {
      NextPreservesInv(s, evs[0]);
      RunPreservesInv(Next(s, evs[0]), evs[1..]);
    }
  }

  /** After setup, whatever the master and the sensor do, the identification
      register reads 0x0D and the pin is low exactly while new data waits. */
  lemma ReachableStates(evs: seq<Event>)
    ensures Run(Setup(), evs).exposed[IdAddress] == Identification
    ensures Run(Setup(), evs).pinHigh <==> !Run(Setup(), evs).ready
  {
    RunPreservesInv(Setup(), evs);
  }

  /** A read that commits serves the mode and config the loop stored with
      the snapshot, which are the current registers. */
  lemma CommitCarriesRegisters(s: State)
    requires Inv(s) && s.ready
    ensures Request(s).0.exposed[ModeAddress] == s.mode
    ensures Request(s).0.exposed[ConfigAddress] == s.config
    ensures Request(s).0.exposed[..IdAddress] == s.staging[..IdAddress]
  {
  }

  // -------------------------------------------------------- production loop

  /** n check points in a row with nothing in between. */
  function Polls(s: State, sensor: Readings, n: nat): State
    decreases n
  {
    if n == 0 then s else Polls(LoopStep(s, sensor), sensor, n - 1)
  }

  /** A pass that starts with both flags clear and is not interrupted
      stores exactly the sensor's fields with the current mode and config,
      and announces them. */
  lemma UninterruptedPass(s: State, sensor: Readings)
    requires s.at == BeforeLatitude && !Dirty(s)
    ensures var t := Polls(s, sensor, 5);
      && t.ready && !t.pinHigh && t.at == BeforeLatitude
      && t.staging == StoreData(s.staging, sensor, s.mode, s.config)
      && Decode(t.staging) == Snapshot(sensor, s.mode, s.config)
      && t.exposed == s.exposed
  {
    var s4 := Polls(s, sensor, 4);
    assert s4.fields == sensor && s4.at == BeforeStore;
  }

  /** Each field of a stored snapshot comes from the sensor at its own point
      of the pass: latitude after the first check, longitude after the
      second, speed after the third and status after the fourth. The sensor
      passed at the fifth check is not looked at. */
  lemma FieldsFollowCheckOrder(s: State, r1: Readings, r2: Readings, r3: Readings,
                               r4: Readings, r5: Readings)
    requires s.at == BeforeLatitude && !Dirty(s)
    ensures var t := Run(s, [Polled(r1), Polled(r2), Polled(r3), Polled(r4), Polled(r5)]);
      && t.ready && !t.pinHigh && t.at == BeforeLatitude
      && Decode(t.staging)
         == Snapshot(Readings(r1.latitude, r2.longitude, r3.speed, r4.status), s.mode, s.config)
  {
    var evs := [Polled(r1), Polled(r2), Polled(r3), Polled(r4), Polled(r5)];
    var s1 := LoopStep(s, r1);
    var s2 := LoopStep(s1, r2);
    var s3 := LoopStep(s2, r3);
    var s4 := LoopStep(s3, r4);
    assert s4.fields == Readings(r1.latitude, r2.longitude, r3.speed, r4.status);
    assert s4.at == BeforeStore && !Dirty(s4) && s4.mode == s.mode && s4.config == s.config;
    assert Run(s, evs) == Run(s1, [Polled(r2), Polled(r3), Polled(r4), Polled(r5)]) by {
      assert evs[1..] == [Polled(r2), Polled(r3), Polled(r4), Polled(r5)];
    }
    assert Run(s1, [Polled(r2), Polled(r3), Polled(r4), Polled(r5)])
           == Run(s2, [Polled(r3), Polled(r4), Polled(r5)]) by {
      assert [Polled(r2), Polled(r3), Polled(r4), Polled(r5)][1..]
             == [Polled(r3), Polled(r4), Polled(r5)];
    }
    assert Run(s2, [Polled(r3), Polled(r4), Polled(r5)]) == Run(s3, [Polled(r4), Polled(r5)]) by {
      assert [Polled(r3), Polled(r4), Polled(r5)][1..] == [Polled(r4), Polled(r5)];
    }
    assert Run(s3, [Polled(r4), Polled(r5)]) == Run(s4, [Polled(r5)]) by {
      assert [Polled(r4), Polled(r5)][1..] == [Polled(r5)];
    }
    assert Run(s4, [Polled(r5)]) == LoopStep(s4, r5) by {
      assert [Polled(r5)][1..] == [];
    }
  }

  /** newDataAvailable rises only at the fifth check point of a pass, and
      only when that check finds both flags clear. That the fifth check is
      reached only after four clean ones is `CheckPointIsStreak` and
      `ReadyRisesAfterFiveCleanPolls`. */
  lemma ReadyRisesOnlyAfterCleanPass(s: State, e: Event)
    ensures Next(s, e).ready && !s.ready ==>
              e.Polled? && s.at == BeforeStore && !Dirty(s)
    ensures Next(s, e).at != s.at ==>
              e.Polled? && (Dirty(s) || s.at == BeforeStore <==> Next(s, e).at == BeforeLatitude)
  {
  }

  /** The number of clean check points in a row that the loop has passed
      since it last started a pass, counted along a run from k: a poll on a
      clean state adds one, and a poll on a dirty state or the poll after
      the fourth clean one (which stores the snapshot) starts again from 0. */
  function Streak(s: State, evs: seq<Event>, k: nat): nat
    decreases |evs|
  {
    if |evs| == 0 then k
    else
      var k' := if !evs[0].Polled? then k
                else if Dirty(s) || k == 4 then 0
                else k + 1;
      Streak(Next(s, evs[0]), evs[1..], k')
  }

  /** The loop's check point always records the streak of clean polls. */
  lemma {:induction false} CheckPointIsStreak(s: State, evs: seq<Event>, k: nat)
    requires CleanChecks(s.at) == k
    ensures CleanChecks(Run(s, evs).at) == Streak(s, evs, k)
    decreases |evs|
  {
    if |evs| > 0 {
      var k' := if !evs[0].Polled? then k else if Dirty(s) || k == 4 then 0 else k + 1;
      CheckPointIsStreak(Next(s, evs[0]), evs[1..], k');
    }
  }

  /** From any state at the start of a pass, setup included, newDataAvailable
      rises only at a poll that finds both flags clear and that follows four
      clean polls in a row since the last restart of the loop: all five
      checks of the pass saw clean flags. */
  lemma ReadyRisesAfterFiveCleanPolls(s: State, evs: seq<Event>, e: Event)
    requires s.at == BeforeLatitude
    ensures var u := Run(s, evs);
      Next(u, e).ready && !u.ready ==>
        e.Polled? && !Dirty(u) && Streak(s, evs, 0) == 4
  {
    CheckPointIsStreak(s, evs, 0);
  }

  /** A queued write is never lost: until the loop reaches a check point
      it stays queued, and from the first check point on its value is in its
      register and in every snapshot announced as ready. */
  lemma {:induction false} QueuedWritesAreApplied(s: State, evs: seq<Event>)
    requires Inv(s) && Dirty(s)
    requires NoRegisterWrites(evs)
    ensures var t := Run(s, evs);
      && (!SomePoll(evs) ==>
            t.pendingMode == s.pendingMode && t.pendingConfig == s.pendingConfig)
      && (SomePoll(evs) ==>
            && !Dirty(t)
            && (s.pendingMode.changed ==> t.mode == s.pendingMode.data)
            && (s.pendingConfig.changed ==> t.config == s.pendingConfig.data)
            && (t.ready ==> t.staging[ModeAddress] == t.mode
                            && t.staging[ConfigAddress] == t.config))
    decreases |evs|
  {
    if |evs| > 0 {
      var s1 := Next(s, evs[0]);
      NextPreservesInv(s, evs[0]);
      assert NoRegisterWrites(evs[1..]) by {
        forall i | 0 <= i < |evs[1..]|
          ensures !evs[1..][i].Written? || |evs[1..][i].payload| == 1
        {
          assert evs[1..][i] == evs[i + 1];
        }
      }
      if evs[0].Polled? {
        assert SomePoll(evs);
        CleanRunKeepsRegisters(s1, evs[1..]);
      } else {
        assert s1.pendingMode == s.pendingMode && s1.pendingConfig == s.pendingConfig;
        QueuedWritesAreApplied(s1, evs[1..]);
        if SomePoll(evs) {
          var i :| 0 <= i < |evs| && evs[i].Polled?;
          assert evs[1..][i - 1] == evs[i];
        }
      }
    }
  }

  /** Without register writes from the master (pointer sets and reads are
      allowed), a state with no queued write keeps its mode and config
      registers for ever. */
  lemma {:induction false} CleanRunKeepsRegisters(s: State, evs: seq<Event>)
    requires Inv(s) && !Dirty(s)
    requires NoRegisterWrites(evs)
    ensures var t := Run(s, evs);
      && t.mode == s.mode && t.config == s.config && !Dirty(t) && Inv(t)
    decreases |evs|
  {
    if |evs| > 0 {
      var s1 := Next(s, evs[0]);
      NextPreservesInv(s, evs[0]);
      assert !evs[0].Written? || |evs[0].payload| == 1;
      assert NoRegisterWrites(evs[1..]) by {
        forall i | 0 <= i < |evs[1..]|
          ensures !evs[1..][i].Written? || |evs[1..][i].payload| == 1
        {
          assert evs[1..][i] == evs[i + 1];
        }
      }
      CleanRunKeepsRegisters(s1, evs[1..]);
    }
  }

  // ---------------------------------------------------------------- decoder

  /** Setting the read pointer twice to the same address is the same as
      setting it once, so the next read serves the same bytes. */
  lemma PointerSetIdempotent(s: State, p: byte)
    ensures Receive(Receive(s, [p]), [p]) == Receive(s, [p])
    ensures Request(Receive(Receive(s, [p]), [p])).1 == Request(Receive(s, [p])).1
  {
  }

  /** Only the first three bytes of a write matter. */
  lemma ExtraBytesDrained(s: State, p: seq<byte>, q: seq<byte>)
    requires |p| >= MaxSentBytes && |q| >= MaxSentBytes
    requires p[..MaxSentBytes] == q[..MaxSentBytes]
    ensures Receive(s, p) == Receive(s, q)
  {
    assert Latch(s.commands, p) == Latch(s.commands, q);
  }

  /** A register write leaves its address in the read pointer, since the
      pointer is byte 0 of the command buffer. After [0x0B, v] the next read
      starts at the mode register. */
  lemma WriteMovesReadPointer(s: State, a: byte, v: byte)
    ensures ReadPointer(Receive(s, [a, v])) == a
    ensures a == ModeAddress ==> Request(Receive(s, [a, v])).1 == Request(Receive(s, [a, v])).0.exposed[ModeAddress..]
    ensures a >= RegMapSize ==> Request(Receive(s, [a, v])).1 == []
    ensures a != ModeAddress && a != ConfigAddress ==>
              Receive(s, [a, v]) == s.(commands := [a, v, s.commands[2]])
  {
  }

  /** After a pointer set to the config register, a read starts with the
      config value of the snapshot it serves. */
  lemma PointerToConfigServesConfig(s: State)
    requires Inv(s)
    ensures var served := Request(Receive(s, [ConfigAddress])).1;
      && served == [Request(Receive(s, [ConfigAddress])).0.exposed[ConfigAddress], Identification]
      && (s.ready ==> served[0] == s.config)
      && (!s.ready ==> served[0] == s.exposed[ConfigAddress])
  {
  }

  /** An empty write is dispatched on the stale command buffer: after a
      pointer set to 0x0B it queues the two bytes left from an older write. */
  lemma EmptyWriteReplaysStaleCommand(s: State)
    requires ReadPointer(s) == ModeAddress
    ensures Receive(s, []).pendingMode == Pending(true, s.commands[1])
    ensures Receive(s, []).pendingConfig == Pending(true, s.commands[2])
    ensures Receive(s, []).commands == s.commands
  {
  }

  /** After a pointer set to 0x0C, an empty write queues the config byte
      left from an older write, and only that. */
  lemma EmptyWriteReplaysStaleConfig(s: State)
    requires ReadPointer(s) == ConfigAddress
    ensures Receive(s, []) == s.(pendingConfig := Pending(true, s.commands[1]))
  {
  }

  /** Right after start-up the command buffer is all zeros, so a pointer set
      to 0x0B followed by an empty write queues mode 0 and config 0, and the
      next check point writes 0 into both registers. */
  lemma FreshEmptyWriteZeroesRegisters(sensor: Readings)
    ensures var s := Receive(Receive(Setup(), [ModeAddress]), []);
      && s.pendingMode == Pending(true, 0) && s.pendingConfig == Pending(true, 0)
      && LoopStep(s, sensor).mode == 0 && LoopStep(s, sensor).config == 0
  {
  }

  /** changeModeConfig right after itself does nothing. */
  lemma ApplyPendingIdempotent(s: State)
    ensures ApplyPending(ApplyPending(s)) == ApplyPending(s)
  {
  }

  // ------------------------------------------------------------- read path

  /** The bounded response is the part of the sketch's 14-byte response that
      lies inside the map; the sketch's remaining bytes come from past the end. */
  lemma ServeIsInBoundsPart(exposed: Image, p: byte)
    ensures var r := Serve(exposed, p);
      && |r| <= RegMapSize
      && (forall i :: 0 <= i < |r| ==> ServeAsWritten(exposed, p)[i] == InMap(r[i]))
      && (forall i :: |r| <= i < RegMapSize ==> ServeAsWritten(exposed, p)[i].PastEnd?)
  {
  }

  /** For every nonzero pointer the sketch's response runs past the map. */
  lemma AsWrittenOverruns(exposed: Image, p: byte)
    requires p > 0
    ensures ServeAsWritten(exposed, p)[RegMapSize - 1] == PastEnd(p - 1)
  {
  }

  // -------------------------------------------------------------- scenarios

  /** The master writes mode 5 and config 6 (a test value and the one after
      it), the loop applies them at its next check point and then runs a full
      pass with the placeholder sensor, and the master reads the whole map
      from address 0. */
  lemma ModeAndConfigWriteThenRead()
    ensures var s := Run(Setup(), [Written([ModeAddress, 5, 6])] + PollsOf(StubReadings, 6)
                                    + [Written([0])]);
      Request(s).1 == [0x00, 0x01, 0x02, 0x03, 0x04, 0x05, 0x06, 0x07, 0x08, 0x09, 0x0A,
                       0x05, 0x06, 0x0D]
  {
    var s0 := Receive(Setup(), [ModeAddress, 5, 6]);
    var s2 := Polls(LoopStep(s0, StubReadings), StubReadings, 5);
    ScenarioRun(s0);
    ScenarioStaging(s0);
    ReadAllAfterPointerReset(s2);
  }

  lemma ReadAllAfterPointerReset(s: State)
    requires s.ready
    ensures Request(Receive(s, [0])).1 == s.staging[..IdAddress] + [s.exposed[IdAddress]]
  {
    var s3 := Receive(s, [0]);
    assert s3.ready && ReadPointer(s3) == 0 && s3.staging == s.staging && s3.exposed == s.exposed;
    assert Request(s3).1 == Commit(s.exposed, s.staging);
  }

  lemma ScenarioRun(s0: State)
    requires s0 == Receive(Setup(), [ModeAddress, 5, 6])
    ensures Run(Setup(), [Written([ModeAddress, 5, 6])] + PollsOf(StubReadings, 6) + [Written([0])])
            == Receive(Polls(LoopStep(s0, StubReadings), StubReadings, 5), [0])
  {
    var w := [Written([ModeAddress, 5, 6])];
    var ps := PollsOf(StubReadings, 6);
    RunSplit(Setup(), w, ps);
    RunSplit(Setup(), w + ps, [Written([0])]);
    RunPolls(s0, StubReadings, 6);
  }

  lemma ScenarioStaging(s0: State)
    requires s0 == Receive(Setup(), [ModeAddress, 5, 6])
    ensures var s2 := Polls(LoopStep(s0, StubReadings), StubReadings, 5);
      && s2.ready && s2.exposed[IdAddress] == Identification
      && s2.staging[..IdAddress]
         == [0x00, 0x01, 0x02, 0x03, 0x04, 0x05, 0x06, 0x07, 0x08, 0x09, 0x0A, 0x05, 0x06]
  {
    assert s0.pendingMode == Pending(true, 5) && s0.pendingConfig == Pending(true, 6);
    assert s0.exposed[IdAddress] == Identification && s0.at == BeforeLatitude;
    StubPass(LoopStep(s0, StubReadings));
  }

  lemma StubPass(s1: State)
    requires s1.mode == 5 && s1.config == 6 && !Dirty(s1) && s1.at == BeforeLatitude
    requires s1.exposed[IdAddress] == Identification
    ensures var s2 := Polls(s1, StubReadings, 5);
      && s2.ready && s2.exposed[IdAddress] == Identification
      && s2.staging[..IdAddress]
         == [0x00, 0x01, 0x02, 0x03, 0x04, 0x05, 0x06, 0x07, 0x08, 0x09, 0x0A, 0x05, 0x06]
  {
    UninterruptedPass(s1, StubReadings);
    StubReadingsLayout(s1.staging, 5, 6);
  }

  /** n check points in a row as events. */
  function PollsOf(sensor: Readings, n: nat): (evs: seq<Event>)
    ensures |evs| == n
    ensures forall i :: 0 <= i < n ==> evs[i] == Polled(sensor)
  {
    seq(n, i => Polled(sensor))
  }

  lemma {:induction false} RunPolls(s: State, sensor: Readings, n: nat)
    ensures Run(s, PollsOf(sensor, n)) == Polls(s, sensor, n)
    decreases n
  {
    if n > 0 {
      assert PollsOf(sensor, n)[1..] == PollsOf(sensor, n - 1);
      RunPolls(LoopStep(s, sensor), sensor, n - 1);
    }
  }

  lemma {:induction false} RunSplit(s: State, a: seq<Event>, b: seq<Event>)
    ensures Run(s, a + b) == Run(Run(s, a), b)
    decreases |a|
  {
    if |a| > 0 {
      assert (a + b)[1..] == a[1..] + b;
      RunSplit(Next(s, a[0]), a[1..], b);
    } else {
      assert a + b == b;
    }
  }
}

=== FILE: register_map.dfy ===
/**
  The 14-byte register map of the GPS slave and its field layout.

    0x00        status
    0x01..0x04  latitude, unsigned 32-bit, most significant byte first
    0x05..0x08  longitude, signed 32-bit two's complement, MSB first
    0x09..0x0A  speed in km/h, unsigned 16-bit, MSB first
    0x0B        mode (writable by the master)
    0x0C        configuration (writable by the master)
    0x0D        identification, fixed at start-up
 */
module RegisterMap {
  import opened Bytes

  const RegMapSize: nat := 14
  /** Bytes of one write command that the slave keeps; the rest are drained. */
  const MaxSentBytes: nat := 3
  const Identification: byte := 0x0D

  const StatusAddress: nat := 0x00
  const LatitudeAddress: nat := 0x01
  const LongitudeAddress: nat := 0x05
  const SpeedAddress: nat := 0x09
  const ModeAddress: nat := 0x0B
  const ConfigAddress: nat := 0x0C
  const IdAddress: nat := 0x0D

  /** One instance of the register map: the exposed map or its staging copy. */
  type Image = m: seq<byte> | |m| == RegMapSize witness seq(14, i => 0)

  /** The four read-only measurements the production loop computes. */
  datatype Readings = Readings(latitude: uint32, longitude: int32, speed: uint16, status: byte)

  /** The placeholder sensor of the sketch: constants whose encodings are the
      bytes 0x01 through 0x0A. */
  const StubReadings := Readings(16909060, 84281096, 2314, 0x00)

  /** Everything the register map carries except the identification byte. */
  datatype Snapshot = Snapshot(readings: Readings, mode: byte, config: byte)

  /** The first 13 bytes of the register map for a snapshot. */
  function Encode(s: Snapshot): (b: seq<byte>)
    ensures |b| == IdAddress
  {
    [s.readings.status]
    + EncodeBE(s.readings.latitude, 4)
    + EncodeBE(Unsigned32(s.readings.longitude), 4)
    + EncodeBE(s.readings.speed, 2)
    + [s.mode, s.config]
  }

  /** How a reader of the map (the master) recovers the fields. */
  function Decode(b: seq<byte>): (s: Snapshot)
    requires |b| >= IdAddress
    ensures s.readings.status == b[StatusAddress]
    ensures s.mode == b[ModeAddress] && s.config == b[ConfigAddress]
  {
    Pow256Widths();
    Snapshot(
      Readings(
        DecodeBE(b[LatitudeAddress..LongitudeAddress]),
        Signed32(DecodeBE(b[LongitudeAddress..SpeedAddress])),
        DecodeBE(b[SpeedAddress..ModeAddress]),
        b[StatusAddress]),
      b[ModeAddress],
      b[ConfigAddress])
  }

  lemma EncodeSlices(s: Snapshot)
    ensures Encode(s)[LatitudeAddress..LongitudeAddress] == EncodeBE(s.readings.latitude, 4)
    ensures Encode(s)[LongitudeAddress..SpeedAddress] == EncodeBE(Unsigned32(s.readings.longitude), 4)
    ensures Encode(s)[SpeedAddress..ModeAddress] == EncodeBE(s.readings.speed, 2)
  {
  }

  /** Decoding looks at bytes 0x00..0x0C only. */
  lemma DecodeReadsPrefix(b: seq<byte>)
    requires |b| >= IdAddress
    ensures Decode(b) == Decode(b[..IdAddress])
  {
    var p := b[..IdAddress];
    assert b[LatitudeAddress..LongitudeAddress] == p[LatitudeAddress..LongitudeAddress];
    assert b[LongitudeAddress..SpeedAddress] == p[LongitudeAddress..SpeedAddress];
    assert b[SpeedAddress..ModeAddress] == p[SpeedAddress..ModeAddress];
  }

  /** A reader decodes exactly the snapshot that was encoded. */
  lemma DecodeEncodeSnapshot(s: Snapshot)
    ensures Decode(Encode(s)) == s
  {
    Pow256Widths();
    EncodeSlices(s);
    DecodeEncode(s.readings.latitude, 4);
    DecodeEncode(Unsigned32(s.readings.longitude), 4);
    DecodeEncode(s.readings.speed, 2);
    SignedUnsigned32(s.readings.longitude);
  }

  /** Every 13-byte prefix is the encoding of exactly one snapshot. */
  lemma EncodeDecodeSnapshot(b: seq<byte>)
    requires |b| == IdAddress
    ensures Encode(Decode(b)) == b
  {
    Pow256Widths();
    var s := Decode(b);
    EncodeDecode(b[LatitudeAddress..LongitudeAddress]);
    EncodeDecode(b[LongitudeAddress..SpeedAddress]);
    EncodeDecode(b[SpeedAddress..ModeAddress]);
    UnsignedSigned32(DecodeBE(b[LongitudeAddress..SpeedAddress]));
    EncodeSlices(s);
    assert b == [b[0]] + b[1..5] + b[5..9] + b[9..11] + [b[11], b[12]];
  }

  /** storeData: lays the current readings, mode and config out in bytes
      0x00..0x0C of the staging map; the identification slot is not touched. */
  function StoreData(staging: Image, r: Readings, mode: byte, config: byte): (t: Image)
    ensures Decode(t) == Snapshot(r, mode, config)
    ensures t[StatusAddress] == r.status
    ensures DecodeBE(t[LatitudeAddress..LongitudeAddress]) == r.latitude
    ensures Signed32(DecodeBE(t[LongitudeAddress..SpeedAddress])) == r.longitude
    ensures DecodeBE(t[SpeedAddress..ModeAddress]) == r.speed
    ensures t[ModeAddress] == mode && t[ConfigAddress] == config
    ensures t[IdAddress] == staging[IdAddress]
  {
    var s := Snapshot(r, mode, config);
    DecodeEncodeSnapshot(s);
    var t := Encode(s) + staging[IdAddress..];
    assert t[..IdAddress] == Encode(s);
    DecodeReadsPrefix(t);
    t
  }

  /** Where storeData puts each byte, in the terms of its copy loops: byte i
      of a field's little-endian word (its value shifted right by 8 * i and
      masked to 8 bits) lands at the field's last address minus i, so the
      most significant byte comes first. */
  lemma StoreDataLayout(staging: Image, r: Readings, mode: byte, config: byte)
    ensures var t := StoreData(staging, r, mode, config);
      && t[StatusAddress] == r.status
      && (forall i :: 0 <= i < 4 ==> t[LatitudeAddress + 3 - i] == r.latitude / Pow256(i) % 256)
      && (forall i :: 0 <= i < 4 ==>
            t[LongitudeAddress + 3 - i] == Unsigned32(r.longitude) / Pow256(i) % 256)
      && (forall i :: 0 <= i < 2 ==> t[SpeedAddress + 1 - i] == r.speed / Pow256(i) % 256)
      && t[ModeAddress] == mode && t[ConfigAddress] == config
  {
    var t := StoreData(staging, r, mode, config);
    var e := Encode(Snapshot(r, mode, config));
    assert t[..IdAddress] == e;
    EncodeSlices(Snapshot(r, mode, config));
    forall i | 0 <= i < 4
      ensures t[LatitudeAddress + 3 - i] == r.latitude / Pow256(i) % 256
      ensures t[LongitudeAddress + 3 - i] == Unsigned32(r.longitude) / Pow256(i) % 256
    {
      EncodeBEByte(r.latitude, 4, 3 - i);
      EncodeBEByte(Unsigned32(r.longitude), 4, 3 - i);
      assert t[LatitudeAddress + 3 - i] == e[LatitudeAddress..LongitudeAddress][3 - i];
      assert t[LongitudeAddress + 3 - i] == e[LongitudeAddress..SpeedAddress][3 - i];
    }
    forall i | 0 <= i < 2
      ensures t[SpeedAddress + 1 - i] == r.speed / Pow256(i) % 256
    {
      EncodeBEByte(r.speed, 2, 1 - i);
      assert t[SpeedAddress + 1 - i] == e[SpeedAddress..ModeAddress][1 - i];
    }
  }

  lemma StubEncodings()
    ensures EncodeBE(16909060, 4) == [0x01, 0x02, 0x03, 0x04]
    ensures EncodeBE(84281096, 4) == [0x05, 0x06, 0x07, 0x08]
    ensures EncodeBE(2314, 2) == [0x09, 0x0A]
  {
  }

  /** With the placeholder sensor, bytes 0x00..0x0A of the map read 0..10. */
  lemma StubReadingsLayout(staging: Image, mode: byte, config: byte)
    ensures StoreData(staging, StubReadings, mode, config)[..IdAddress]
            == [0x00, 0x01, 0x02, 0x03, 0x04, 0x05, 0x06, 0x07, 0x08, 0x09, 0x0A, mode, config]
  {
    var t := StoreData(staging, StubReadings, mode, config);
    var e := Encode(Snapshot(StubReadings, mode, config));
    assert t[..IdAddress] == e;
    assert Unsigned32(StubReadings.longitude) == 84281096;
    StubEncodings();
    assert e == [0x00] + [0x01, 0x02, 0x03, 0x04] + [0x05, 0x06, 0x07, 0x08] + [0x09, 0x0A]
                + [mode, config];
  }
}

=== FILE: slave.dfy ===
/**
  The I2C slave sketch as one immutable state record and pure step functions.

  The bus callbacks (a write from the master, a read request) and each check
  point of the production loop are atomic steps; the callbacks interleave
  with the loop only between its check points.
 */
module Slave {
  import opened Bytes
  import opened RegisterMap

  /** receivedCommands: the first bytes of the last write from the master.
      Byte 0 doubles as the read pointer. */
  type CommandBuffer = c: seq<byte> | |c| == MaxSentBytes witness [0, 0, 0]

  /** A write to the mode or config register that the loop has not applied
      yet (zeroB_changed / zeroB_data, zeroC_changed / zeroC_data). */
  datatype Pending = Pending(changed: bool, data: byte)

  const Clean := Pending(false, 0)

  /** The five places where the loop polls the pending flags: before the
      latitude, after the latitude, after the longitude, after the speed,
      and after the status. Each is named by what the loop does next. */
  datatype CheckPoint = BeforeLatitude | BeforeLongitude | BeforeSpeed | BeforeStatus | BeforeStore

  /** How many checks of the current pass have already found both flags clear. */
  function CleanChecks(c: CheckPoint): nat {
    match c
    case BeforeLatitude => 0
    case BeforeLongitude => 1
    case BeforeSpeed => 2
    case BeforeStatus => 3
    case BeforeStore => 4
  }

  datatype State = State(
    exposed: Image,           // registerMap, served to the master
    staging: Image,           // registerMapTemp, filled by storeData
    commands: CommandBuffer,  // receivedCommands
    ready: bool,              // newDataAvailable
    mode: byte,               // modeRegister
    config: byte,             // configRegister
    pendingMode: Pending,
    pendingConfig: Pending,
    fields: Readings,         // latitude, longitude, speedKPH, gpsStatus
    pinHigh: bool,            // level of the ready pin
    at: CheckPoint)           // the loop's next check

  function ReadPointer(s: State): byte {
    s.commands[0]
  }

  predicate Dirty(s: State) {
    s.pendingMode.changed || s.pendingConfig.changed
  }

  /** The invariants every reachable state keeps between steps. */
  predicate Inv(s: State) {
    && s.exposed[IdAddress] == Identification
    && s.pinHigh == !s.ready
    && (s.ready ==> s.staging[ModeAddress] == s.mode && s.staging[ConfigAddress] == s.config)
  }

  /** The globals' initial values after setup: the pin is high, the
      identification byte is in place, everything else is zero. */
  function Setup(): (s: State)
    ensures Inv(s)
    ensures !s.ready && !Dirty(s) && s.at == BeforeLatitude
    ensures forall i :: 0 <= i < IdAddress ==> s.exposed[i] == 0
    ensures s.mode == 0 && s.config == 0
    ensures forall i :: 0 <= i < MaxSentBytes ==> s.commands[i] == 0
  {
    var zeros: Image := seq(RegMapSize, i => 0);
    State(zeros[IdAddress := Identification], zeros, [0, 0, 0], false, 0, 0,
          Clean, Clean, Readings(0, 0, 0, 0), true, BeforeLatitude)
  }

  // ---------------------------------------------------------------- receive

  /** The command buffer after a write: the first bytes of the payload
      overwrite it, bytes past the third are dropped, and slots the payload
      does not reach keep their old contents. */
  function Latch(buf: CommandBuffer, payload: seq<byte>): (r: CommandBuffer)
    ensures forall i :: 0 <= i < |payload| && i < MaxSentBytes ==> r[i] == payload[i]
    ensures forall i :: |payload| <= i < MaxSentBytes ==> r[i] == buf[i]
  {
    if |payload| >= MaxSentBytes then payload[..MaxSentBytes]
    else payload + buf[|payload|..]
  }

  /** The copy loop of receiveEvent, byte by byte as the bus delivers them. */
  method ReadPayload(buf: CommandBuffer, payload: seq<byte>) returns (r: CommandBuffer)
    ensures forall i :: 0 <= i < |payload| && i < MaxSentBytes ==> r[i] == payload[i]
    ensures forall i :: |payload| <= i < MaxSentBytes ==> r[i] == buf[i]
    ensures r == Latch(buf, payload)
  {
    r := buf;
    var a := 0;
    while a < |payload|
      invariant 0 <= a <= |payload|
      invariant forall i :: 0 <= i < a && i < MaxSentBytes ==> r[i] == payload[i]
      invariant forall i :: a <= i < MaxSentBytes ==> r[i] == buf[i]
    {
      if a < MaxSentBytes {
        r := r[a := payload[a]];
      }
      // otherwise the byte is read from the bus and thrown away
      a := a + 1;
    }
  }

  /** receiveEvent: a write transaction from the master.

      A single byte sets the read pointer, clamped to 0 when it is past the
      map. Anything else is a register write dispatched on byte 0 of the
      command buffer: 0x0B queues a mode write and, when a third byte came,
      a config write; 0x0C queues a config write; any other address is
      ignored. An empty payload is not special-cased, so it dispatches on
      the command buffer left over from the previous write. */
  function Receive(s: State, payload: seq<byte>): (t: State)
    ensures t == s.(commands := t.commands, pendingMode := t.pendingMode,
                    pendingConfig := t.pendingConfig)
    ensures |payload| == 1 ==>
              && ReadPointer(t) == (if payload[0] < RegMapSize then payload[0] else 0)
              && t.commands[1..] == s.commands[1..]
              && t.pendingMode == s.pendingMode
              && t.pendingConfig == s.pendingConfig
    ensures |payload| >= 2 ==> t.commands == Latch(s.commands, payload)
    ensures |payload| >= 2 && payload[0] == ModeAddress ==>
              && t.pendingMode == Pending(true, payload[1])
              && t.pendingConfig == (if |payload| >= 3 then Pending(true, payload[2])
                                     else s.pendingConfig)
    ensures |payload| >= 2 && payload[0] == ConfigAddress ==>
              && t.pendingMode == s.pendingMode
              && t.pendingConfig == Pending(true, payload[1])
    ensures |payload| != 1 && t.commands[0] != ModeAddress && t.commands[0] != ConfigAddress ==>
              t.pendingMode == s.pendingMode && t.pendingConfig == s.pendingConfig
    ensures |payload| == 0 ==> t.commands == s.commands
    ensures |payload| == 0 && s.commands[0] == ModeAddress ==>
              && t.pendingMode == Pending(true, s.commands[1])
              && t.pendingConfig == Pending(true, s.commands[2])
    ensures |payload| == 0 && s.commands[0] == ConfigAddress ==>
              && t.pendingMode == s.pendingMode
              && t.pendingConfig == Pending(true, s.commands[1])
  {
    var cmds := Latch(s.commands, payload);
    if |payload| == 1 then
      if cmds[0] < RegMapSize then s.(commands := cmds)
      else s.(commands := cmds[0 := 0])
    else if cmds[0] == ModeAddress then
      var t := s.(commands := cmds, pendingMode := Pending(true, cmds[1]));
      if |payload| - 1 == 1 then t
      else t.(pendingConfig := Pending(true, cmds[2]))
    else if cmds[0] == ConfigAddress then
      s.(commands := cmds, pendingConfig := Pending(true, cmds[1]))
    else
      s.(commands := cmds)
  }

  // ------------------------------------------------------- loop and events

  /** toggleInterrupt with the interrupt line enabled: the pin goes low
      while new data is available and high otherwise. */
  function Toggle(s: State): (t: State)
    ensures t.pinHigh <==> !t.ready
    ensures t == s.(pinHigh := t.pinHigh)
  {
    s.(pinHigh := !s.ready)
  }

  /** changeModeConfig: every pending write goes into its register, and its
      flag and data are reset. */
  function ApplyPending(s: State): (t: State)
    ensures !Dirty(t)
    ensures t.mode == (if s.pendingMode.changed then s.pendingMode.data else s.mode)
    ensures t.config == (if s.pendingConfig.changed then s.pendingConfig.data else s.config)
    ensures !s.pendingMode.changed ==> t.pendingMode == s.pendingMode
    ensures !s.pendingConfig.changed ==> t.pendingConfig == s.pendingConfig
    ensures s.pendingMode.changed ==> t.pendingMode == Clean
    ensures s.pendingConfig.changed ==> t.pendingConfig == Clean
    ensures t == s.(mode := t.mode, config := t.config,
                    pendingMode := t.pendingMode, pendingConfig := t.pendingConfig)
  {
    var s1 := if s.pendingMode.changed
      then s.(mode := s.pendingMode.data, pendingMode := Clean) else s;
    if s1.pendingConfig.changed
      then s1.(config := s1.pendingConfig.data, pendingConfig := Clean) else s1
  }

  /** One check point of loop(), followed by the work up to the next one.
      A dirty flag abandons the pass: the data is marked stale, the pin is
      driven, the pending writes are applied and the loop starts over.
      Otherwise the loop computes the next field from the sensor, or at the
      last check stores the snapshot and announces it. */
  function LoopStep(s: State, sensor: Readings): (t: State)
    ensures Dirty(s) ==>
              && !t.ready && t.pinHigh && !Dirty(t) && t.at == BeforeLatitude
              && t.staging == s.staging && t.fields == s.fields
              && t.mode == (if s.pendingMode.changed then s.pendingMode.data else s.mode)
              && t.config == (if s.pendingConfig.changed then s.pendingConfig.data else s.config)
    ensures !Dirty(s) ==> t.mode == s.mode && t.config == s.config
                          && t.pendingMode == s.pendingMode && t.pendingConfig == s.pendingConfig
    ensures !Dirty(s) && s.at != BeforeStore ==> CleanChecks(t.at) == CleanChecks(s.at) + 1
    ensures !Dirty(s) && s.at != BeforeStore ==> t == s.(fields := t.fields, at := t.at)
    ensures !Dirty(s) && s.at == BeforeLatitude ==>
              t.fields == s.fields.(latitude := sensor.latitude)
    ensures !Dirty(s) && s.at == BeforeLongitude ==>
              t.fields == s.fields.(longitude := sensor.longitude)
    ensures !Dirty(s) && s.at == BeforeSpeed ==>
              t.fields == s.fields.(speed := sensor.speed)
    ensures !Dirty(s) && s.at == BeforeStatus ==>
              t.fields == s.fields.(status := sensor.status)
    ensures t.ready && !s.ready ==> s.at == BeforeStore && !Dirty(s)
    ensures t.staging != s.staging ==> s.at == BeforeStore && !Dirty(s)
    ensures s.at == BeforeStore && !Dirty(s) ==>
              && t.ready && !t.pinHigh && t.at == BeforeLatitude
              && Decode(t.staging) == Snapshot(s.fields, s.mode, s.config)
    ensures t.exposed == s.exposed && t.commands == s.commands
  {
    if Dirty(s) then
      ApplyPending(Toggle(s.(ready := false))).(at := BeforeLatitude)
    else
      match s.at
      case BeforeLatitude =>
        s.(fields := s.fields.(latitude := sensor.latitude), at := BeforeLongitude)
      case BeforeLongitude =>
        s.(fields := s.fields.(longitude := sensor.longitude), at := BeforeSpeed)
      case BeforeSpeed =>
        s.(fields := s.fields.(speed := sensor.speed), at := BeforeStatus)
      case BeforeStatus =>
        s.(fields := s.fields.(status := sensor.status), at := BeforeStore)
      case BeforeStore =>
        Toggle(s.(staging := StoreData(s.staging, s.fields, s.mode, s.config),
                  ready := true, at := BeforeLatitude))
  }

  /** The copy at the top of requestEvent: bytes 0x00..0x0C come from the
      staging map, the identification byte stays. */
  function Commit(exposed: Image, staging: Image): (r: Image)
    ensures forall i :: 0 <= i < IdAddress ==> r[i] == staging[i]
    ensures r[IdAddress] == exposed[IdAddress]
  {
    staging[..IdAddress] + exposed[IdAddress..]
  }

  /** The bytes a read serves from pointer p: the rest of the map from p on,
      nothing when p is past the end. */
  function Serve(exposed: Image, p: byte): (r: seq<byte>)
    ensures |r| == if p < RegMapSize then RegMapSize - p else 0
    ensures forall i :: 0 <= i < |r| ==> r[i] == exposed[p + i]
  {
    if p < RegMapSize then exposed[p..] else []
  }

  /** requestEvent: commit the staged snapshot if there is one, mark the
      data as read, drive the pin, and serve the map from the read pointer. */
  function Request(s: State): (result: (State, seq<byte>))
    ensures var (t, served) := result;
      && t.exposed == (if s.ready then Commit(s.exposed, s.staging) else s.exposed)
      && !t.ready && t.pinHigh
      && t == s.(exposed := t.exposed, ready := false, pinHigh := true)
      && served == Serve(t.exposed, ReadPointer(s))
  {
    var committed := if s.ready then s.(exposed := Commit(s.exposed, s.staging)) else s;
    var t := Toggle(committed.(ready := false));
    (t, Serve(t.exposed, ReadPointer(t)))
  }

  /** One byte of the response as the sketch builds it: a byte of the map,
      or the byte that lies `offset` places past its end in memory. */
  datatype WireByte = InMap(value: byte) | PastEnd(offset: nat)

  /** The response exactly as requestEvent writes it: 14 bytes from
      registerMap + p, whatever lies there. */
  function ServeAsWritten(exposed: Image, p: byte): (r: seq<WireByte>)
    ensures |r| == RegMapSize
    ensures forall i :: 0 <= i < |r| ==> (r[i].InMap? <==> p + i < RegMapSize)
    ensures forall i :: 0 <= i < |r| && p + i < RegMapSize ==> r[i] == InMap(exposed[p + i])
  {
    seq(RegMapSize, i requires 0 <= i < RegMapSize =>
      if p + i < RegMapSize then InMap(exposed[p + i]) else PastEnd(p + i - RegMapSize))
  }
}
